=== FILE: README.md ===
# Game evaluation orchestrator of freechess, in Dafny

This project models the decision logic of freechess's game-evaluation
orchestrator (`src/pages/report/scripts/analysis.ts`). It leaves out the page
plumbing around that logic.

For an ordered list of positions from one game, the orchestrator gets two
ranked engine lines per position:

- It first asks the Lichess cloud evaluation cache about each position, one
  after another. It stops for good at the first position the cache cannot
  cover. It may then ask for a one-off "cutoff" evaluation of the position
  just before that one.
- It then runs local Stockfish workers on the remaining positions. A periodic
  tick drives them, with at most eight in flight at once.
- When every position holds lines, it collapses each position's origin tag to
  "cloud" or "local" and hands the list to the report.

Modules:

- `Types` (`types.dfy`): engine lines, evaluations, the origin tag
  (`NoWorker | CloudTag | Local(id) | LocalTag`), positions and workers.
- `Cloud` (`cloud.dfy`):
  - turns cloud principal variations into engine lines: first move token,
    the four-entry castling rewrite table, and the cp/mate evaluation;
  - the sequential cloud walk with `placeCutoff`;
  - the value stored as the cutoff evaluation.
- `ProgressTracker` (`progress.dfy`): the progress percentage, computed in
  exact `real` arithmetic.
- `Scheduler` (`scheduler.dfy`):
  - the scheduler state: positions, every worker created, the in-flight
    counter, and the outstanding cutoff request;
  - the tick: termination check, then assignment under the cap, then
    progress;
  - the asynchronous events: a worker delivering its lines, a worker
    reporting its depth, and the cutoff evaluation arriving;
  - the invariant `Inv` that all of these preserve.
- `Handoff` (`handoff.dfy`): origin normalisation before the report.
- `Orchestrator` (`orchestrator.dfy`):
  - the local phase as a transition system over any interleaving of events;
  - an end-to-end property of a whole evaluation;
  - concrete scenarios.

Inputs and assumptions:

- The cloud answers are a parameter, one `Response` per position
  (`Answer(pvs) | NotOk | TransportError`).
- Worker completions, depth reports and the cutoff answer are events.
  `Orchestrator.Run` takes an arbitrary sequence of them, and ticks
  interleave with them freely.
- An event that cannot happen in the current state is dropped, for example a
  second delivery by the same worker.
- A new worker is taken to report depth 0 until it reports otherwise.

## Behaviour as written

The model follows the code in these places, even where the code's evident
intent differs:

- A thrown request or a missing response ends the cloud phase without asking
  for a cutoff evaluation (analysis.ts:120-122). Only a non-ok response or a
  line count other than two asks for one (`Cloud.CloudWalk`,
  `Orchestrator.ScenarioTransportErrorNoCutoff`).
- The lines of a cloud answer are stored before the "exactly two lines"
  check (analysis.ts:132 and 157). So a short or long answer leaves lines on
  a position whose origin is still untagged (`Cloud.AfterFailure`). The
  next tick starts a worker on that position, because only the origin
  decides eligibility. When that worker delivers, its lines replace the
  cloud lines already stored (analysis.ts:202), since delivery writes
  `topLines` unconditionally (`Scheduler.Complete`, `Scheduler.CompleteSpec`).
- The termination test only asks that every position holds lines
  (analysis.ts:176), not that it holds two. So a one-position game whose
  cloud answer has one line is reported on the first tick, with one line and
  no worker ever started (`Orchestrator.ScenarioShortCloudAnswerReported`).
  With more positions, the worker started on such a position can still be
  running when the report is made.
- The cap of eight bounds the workers in flight: the counter of undelivered
  workers (`Scheduler.Counted`). A worker keeps its position's tag after it
  delivers, so more than eight positions can carry a local-worker tag.
- A worker delivering its lines does not change progress. Progress adds each
  worker's last reported depth, whether or not the worker has finished
  (analysis.ts:213-214).
- Any string tag adds the full target depth to progress. That covers
  "cloud", and "local" too.
- The cutoff evaluation arrives asynchronously. It can land after the local
  phase has begun. A report made before it arrives carries no cutoff
  evaluation.

## Model

| member | source | states |
|---|---|---|
| Cloud.FirstToken | src/pages/report/scripts/analysis.ts:139 | the move is a prefix of the move list, contains no space, and ends at the end of the list or at a space |
| Cloud.FirstTokenUnique | src/pages/report/scripts/analysis.ts:139 | any prefix with those three properties is the first token, so they define it |
| Cloud.FixCastling | src/pages/report/scripts/analysis.ts:146-152 | no rewritten move is a king-captures-rook castling move; every move outside the table is unchanged |
| Cloud.FixCastlingTable | src/pages/report/scripts/analysis.ts:146-152 | e8h8→e8g8, e1h1→e1g1, e8a8→e8c8, e1a1→e1c1; every other string unchanged; applying the rewrite twice equals applying it once |
| Cloud.ToEvaluation | src/pages/report/scripts/analysis.ts:133-143 | the kind is mate exactly when cp is absent; the value is cp, else mate, else the non-numeric "cp" literal |
| Cloud.CloudLinesShape | src/pages/report/scripts/analysis.ts:132-155 | one line per principal variation; the i-th has id i+1 and the target depth; its move is the rewritten first token, never a king-captures-rook move; its evaluation is mate exactly when cp is absent, with value cp, else mate, else the literal "cp" |
| Cloud.PlaceCutoff | src/pages/report/scripts/analysis.ts:96-98 | the cutoff targets the position just before the failing one, and nothing when the failing position is the first |
| Cloud.CloudWalk | src/pages/report/scripts/analysis.ts:95-162 | the walk stops at the first uncovered position k; it tags positions 0..k-1 "cloud" with their lines; at k it stores lines only for an answer; it leaves later positions untouched; it requests a cutoff exactly when k < n, k > 0 and the failure is not a transport error |
| Cloud.CutoffValue | src/pages/report/scripts/analysis.ts:103-107 | the stored cutoff evaluation is that of the first line with id 1, or 0 centipawns if there is none |
| ProgressTracker.Contribution | src/pages/report/scripts/analysis.ts:212-218 | an untagged position contributes 0; a string tag contributes the target depth; a position held by a worker contributes that worker's last reported depth, whether or not the worker has finished |
| ProgressTracker.ProgressNothingTagged | src/pages/report/scripts/analysis.ts:211-220 | progress is 0 when no position is tagged |
| ProgressTracker.ProgressAllCloud | src/pages/report/scripts/analysis.ts:211-220 | progress is 100 when every position is "cloud" |
| ProgressTracker.ProgressBounds | src/pages/report/scripts/analysis.ts:211-220 | progress lies in 0..100 while no worker reports more than the target depth |
| ProgressTracker.CloudProgressAgrees | src/pages/report/scripts/analysis.ts:164-165 | after covering positions 0..i, the cloud loop's (i+1)/n×100 equals the scheduler's depth formula for that state |
| ProgressTracker.DepthSumMono | src/pages/report/scripts/analysis.ts:211-218 | if each position contributes no more in one state than in another, the depth total is no larger |
| Handoff.NormaliseOrigin | src/pages/report/scripts/analysis.ts:313-315 | the result is "cloud" or "local", and "cloud" exactly when the input was "cloud" |
| Handoff.NormaliseSpec | src/pages/report/scripts/analysis.ts:312-317 | length and order are kept; board, move, lines and cutoff evaluation are unchanged; only "cloud" stays "cloud"; normalising is idempotent |
| Scheduler.Slots | src/pages/report/scripts/analysis.ts:198 | a tick starts no more positions than are untagged, never exceeds the cap, and starts fewer only when it reaches the cap |
| Scheduler.AssignFromSpec | src/pages/report/scripts/analysis.ts:197-208 | the assignment loop starts workers on exactly the first min(8−c, #untagged) untagged positions, in list order, with consecutive worker ids; nothing else changes |
| Scheduler.TickFinishes | src/pages/report/scripts/analysis.ts:176-193 | a tick ends the phase exactly when every position holds lines; it checks this before assigning, and the report is the normalised list |
| Scheduler.TickAssigns | src/pages/report/scripts/analysis.ts:197-208 | a running tick starts exactly the first min(8−c, #untagged) untagged positions; it never touches a tagged position; the count stays ≤ 8 and reaches 8 whenever untagged positions are left over |
| Scheduler.TickPreservesInv | src/pages/report/scripts/analysis.ts:196-208 | a tick keeps workers and positions paired one to one, the counter equal to the undelivered workers and ≤ 8, and the cutoff invariant |
| Scheduler.TickKeepsDepthSum | src/pages/report/scripts/analysis.ts:196-220 | assignment leaves the depth total unchanged, so the tick reports the progress of the state it started from |
| Scheduler.CompleteSpec | src/pages/report/scripts/analysis.ts:201-204 | a delivery writes lines only on the worker's own position and keeps every origin; the counter drops by one; the invariant and the depth total are kept |
| Scheduler.ReportDepthSpec | src/pages/report/scripts/analysis.ts:211-218 | a depth report keeps the invariant; a report that does not lower the depth does not lower progress; a report within the target depth keeps every worker within it |
| Scheduler.ResolveCutoffSpec | src/pages/report/scripts/analysis.ts:100-107 | the cutoff evaluation lands on the requested position only, and afterwards no other position carries one |
| Scheduler.StartInv | src/pages/report/scripts/analysis.ts:95-171 | the state the cloud phase leaves on a freshly parsed game satisfies the scheduler invariant |
| Scheduler.WorkersDistinct | src/pages/report/scripts/analysis.ts:197-207 | under the invariant, two workers never evaluate the same position |
| Orchestrator.RunSafe | src/pages/report/scripts/analysis.ts:173-224 | over any interleaving of events the invariant holds; a report keeps boards, moves and order; every position holds lines; "cloud" stays exactly where it was with its lines; all else is "local"; any cutoff is on the requested position |
| Orchestrator.EvaluateSpec | src/pages/report/scripts/analysis.ts:95-317 | a report of a whole evaluation has "cloud" exactly on the positions before the first uncovered one, with their cloud lines, and "local" elsewhere; any cutoff evaluation sits just before the first uncovered position and only after a non-transport failure |
| Orchestrator.ScenarioReportThroughWorkers | src/pages/report/scripts/analysis.ts:95-224 | three positions, the first covered and a not-ok answer at the second, reach a report after both workers deliver and the cutoff evaluation arrives: "cloud" with the cutoff evaluation first, then "local" with each worker's lines |
| Orchestrator.ScenarioCutoffThenLocal | src/pages/report/scripts/analysis.ts:95-208 | three positions, the first covered and a not-ok answer at the second: a cutoff is requested for the first, which keeps its cloud lines, and the first tick starts workers 0 and 1 on the second and third |
| Orchestrator.ScenarioSingleCloudPosition | src/pages/report/scripts/analysis.ts:95-193 | a one-position game covered by the cloud is reported "cloud" on the first tick, with two lines and no cutoff |
| Orchestrator.FirstTickAllUntagged | src/pages/report/scripts/analysis.ts:197-208 | on n untagged positions the first tick starts workers on the first min(8, n), in order, and leaves the rest untagged |
| Orchestrator.ScenarioCapOfEight | src/pages/report/scripts/analysis.ts:95-208 | ten positions with a failure at the first: no cutoff is requested; the first tick starts positions 0–7 and leaves 8 and 9 untagged |
| Orchestrator.ScenarioShortCloudAnswerReported | src/pages/report/scripts/analysis.ts:132-193 | a one-line cloud answer for a one-position game is reported on the first tick with one line and origin "local" |
| Orchestrator.ScenarioTransportErrorNoCutoff | src/pages/report/scripts/analysis.ts:112-123 | a transport error after a covered position ends the walk without a cutoff and leaves the failing position untouched |

## Left out

- Status messages, the progress bar, report cards, sounds and CAPTCHA
  handling are presentation only: `logAnalysisInfo`, `logAnalysisError`,
  `loadReportCards` and the DOM calls in `evaluate` and `report`. Progress is
  modelled as the value the bar would receive. The forced 100 at termination
  is a display assignment and is not modelled.
- The guard against a second evaluation and the empty-PGN check (lines
  48-59) are not modelled. They belong to the page and run before any
  position exists.
- `parseApi` is not modelled: it wraps chess.js and pgn-parser, which are not
  part of this model. Positions are a given non-empty list, and the start
  position is always present. `reportApi` and the scorer `analyse` are not
  modelled either. Only the normalised list handed to them is.
- The `fetch` request and JSON decoding are network I/O. A response is the
  abstract `Response`. A body that fails to decode, or lacks `pvs`, would
  abort the whole evaluation with an exception. So would a principal
  variation without `moves`, at `pv.moves.split` (analysis.ts:139).
  `CloudPv.moves` is always a string here. These cases are not modelled.
- Stockfish workers (`engine.ts` is not part of this model) and `setInterval`
  timing are not modelled as real concurrency. A worker is an index with a
  reported depth and a done flag. Its completion and depth reports are
  events, and so are ticks.
- Nothing bounds the depth a worker reports: that comes from the engine, and
  `engine.ts` is not part of this model. `ProgressTracker.ProgressBounds`
  therefore assumes that no worker reports more than the target depth.
  `Scheduler.ReportDepthSpec` shows that a report within the target keeps
  this bound.
- A worker that still runs after the report has been made is not followed
  further. This can happen to the worker of a position with a short cloud
  answer.
- Loading a saved analysis and the depth-slider icons are presentation only.
- Percentages are exact `real`s, not floating point. Depth must be positive.
- Cloud.FixCastling: the lookup is modelled as the four-entry table alone. In
  the source it is a plain object lookup, so a move string equal to an
  inherited property name such as "toString" would yield that property
  instead. Cloud moves never take that form.

=== FILE: cloud.dfy ===
/**
 The cloud phase: positions are looked up one after another in the remote
 evaluation cache, each answer's principal variations are turned into
 engine lines, and the walk stops for good at the first position the cache
 cannot cover, possibly asking for a cutoff evaluation of the position just
 before it.
 */
module Cloud {
  import opened Types

  /** One principal variation of a cloud answer: the space-separated move
      list and a centipawn or a mate score (either may be absent). */
  datatype CloudPv = CloudPv(moves: string, cp: Option<int>, mate: Option<int>)

  /** What one cloud request yields. `TransportError` covers both a thrown
      request and a missing response object; `NotOk` is an answer whose status
      is not ok; `Answer` carries the decoded principal variations. */
  datatype Response = Answer(pvs: seq<CloudPv>) | NotOk | TransportError

  // ---------------------------------------------------------------------------
  // Mapping one answer to engine lines
  // ---------------------------------------------------------------------------

  /** The first token of `s` when it is split on the space character. */
  function FirstToken(s: string): (r: string)
    ensures r <= s
    ensures ' ' !in r
    ensures |r| == |s| || s[|r|] == ' '
  {
    if |s| == 0 || s[0] == ' ' then "" else [s[0]] + FirstToken(s[1..])
  }

  /** The three properties of `FirstToken` pin it down: any prefix without a
      space that ends at the end of `s` or at a space is the first token. */
  lemma FirstTokenUnique(s: string, t: string)
    requires t <= s
    requires ' ' !in t
    requires |t| == |s| || s[|t|] == ' '
    ensures t == FirstToken(s)
  {
  }

  /** The cache writes castling as the king capturing its own rook; these
      four entries rewrite it as the king moving two squares. */
  const CastlingFixes: map<string, string> :=
    map["e8h8" := "e8g8", "e1h1" := "e1g1", "e8a8" := "e8c8", "e1a1" := "e1c1"]

  function FixCastling(uci: string): (r: string)
    ensures r !in CastlingFixes
    ensures uci !in CastlingFixes ==> r == uci
  {
    if uci in CastlingFixes then CastlingFixes[uci] else uci
  }

  /** The four rewrites, every other move left alone, and a second pass
      changing nothing. */
  lemma FixCastlingTable(uci: string)
    ensures FixCastling("e8h8") == "e8g8" && FixCastling("e1h1") == "e1g1"
    ensures FixCastling("e8a8") == "e8c8" && FixCastling("e1a1") == "e1c1"
    ensures uci != "e8h8" && uci != "e1h1" && uci != "e8a8" && uci != "e1a1" ==> FixCastling(uci) == uci
    ensures FixCastling(FixCastling(uci)) == FixCastling(uci)
  {
  }

  /** The evaluation of one principal variation: a mate score exactly when
      the centipawn score is absent; the value is the centipawn score, else
      the mate score, else the literal "cp". */
  function ToEvaluation(pv: CloudPv): (e: Evaluation)
    ensures e.kind == Mate <==> pv.cp.None?
    ensures e.value.Num? <==> pv.cp.Some? || pv.mate.Some?
    ensures pv.cp.Some? ==> e.value == Num(pv.cp.value)
    ensures pv.cp.None? && pv.mate.Some? ==> e.value == Num(pv.mate.value)
  {
    var kind := if pv.cp.None? then Mate else Cp;
    match pv.cp
    case Some(c) => Evaluation(kind, Num(c))
    case None =>
      match pv.mate
      case Some(m) => Evaluation(kind, Num(m))
      case None => Evaluation(kind, CpLiteral)
  }

  /** The `index`-th principal variation as an engine line. */
  function ToLine(pv: CloudPv, index: nat, depth: nat): EngineLine {
    EngineLine(index + 1, depth, FixCastling(FirstToken(pv.moves)), ToEvaluation(pv))
  }

  /** All principal variations of an answer, in order: the i-th line is
      ranked i+1, searched to the requested depth, plays the first move of
      the i-th variation with castling rewritten, and carries that
      variation's evaluation. */
  function ToLines(pvs: seq<CloudPv>, depth: nat): (lines: seq<EngineLine>)
    ensures |lines| == |pvs|
    ensures forall i :: 0 <= i < |pvs| ==>
      && lines[i].id == i + 1
      && lines[i].depth == depth
      && lines[i].moveUCI == FixCastling(FirstToken(pvs[i].moves))
      && lines[i].evaluation == ToEvaluation(pvs[i])
  {
    seq(|pvs|, i requires 0 <= i < |pvs| => ToLine(pvs[i], i, depth))
  }

  /** What the stored lines of a cloud answer look like: one per principal
      variation, ranked 1, 2, ... in answer order, all at the requested depth,
      each move the first token of its variation with castling rewritten, so
      that no king-captures-rook move is ever stored. */
  lemma CloudLinesShape(pvs: seq<CloudPv>, depth: nat)
    ensures |ToLines(pvs, depth)| == |pvs|
    ensures forall i :: 0 <= i < |pvs| ==>
      var l := ToLines(pvs, depth)[i];
      && l.id == i + 1
      && l.depth == depth
      && l.moveUCI !in CastlingFixes
      && l.moveUCI == FixCastling(FirstToken(pvs[i].moves))
      && ' ' !in l.moveUCI
      && (FirstToken(pvs[i].moves) !in CastlingFixes ==> l.moveUCI <= pvs[i].moves)
      && (l.evaluation.kind == Mate <==> pvs[i].cp.None?)
      && (pvs[i].cp.Some? ==> l.evaluation.value == Num(pvs[i].cp.value))
      && (pvs[i].cp.None? && pvs[i].mate.Some? ==> l.evaluation.value == Num(pvs[i].mate.value))
      && (pvs[i].cp.None? && pvs[i].mate.None? ==> l.evaluation.value == CpLiteral)
      && l.evaluation == ToEvaluation(pvs[i])
  {
  }

  // ---------------------------------------------------------------------------
  // The sequential walk
  // ---------------------------------------------------------------------------

  /** A cloud answer covers a position when it is ok and has exactly two
      principal variations. */
  predicate Covers(r: Response) {
    r.Answer? && |r.pvs| == 2
  }

  /** `placeCutoff` for the position at index `i`: the index of the
      preceding position whose cutoff evaluation is requested, if any. */
  function PlaceCutoff(i: nat): (target: Option<nat>)
    ensures target.Some? <==> i > 0
    ensures target.Some? ==> target.value + 1 == i
  {
    if i == 0 then None else Some(i - 1)
  }

  /** A position the cloud covered: its lines stored and its origin "cloud". */
  function CloudCovered(p: Position, pvs: seq<CloudPv>, depth: nat): Position {
    p.(topLines := Some(ToLines(pvs, depth)), origin := CloudTag)
  }

  /** The position the walk stopped at: a short or long answer still leaves
      its lines stored (with no origin set); any other failure leaves it as
      it was. */
  function AfterFailure(p: Position, r: Response, depth: nat): Position {
    if r.Answer? then p.(topLines := Some(ToLines(r.pvs, depth))) else p
  }

  /** Where the walk stopped, the positions afterwards, and the index of the
      position whose cutoff evaluation was requested. */
  datatype CloudOutcome = CloudOutcome(ps: seq<Position>, stop: nat, cutoff: Option<nat>)

  /** The cloud loop from index `i` on; `rs[j]` is what the cache answers
      for position `j`. */
  function CloudWalk(ps: seq<Position>, rs: seq<Response>, depth: nat, i: nat): (out: CloudOutcome)
    requires |rs| == |ps| && i <= |ps|
    ensures |out.ps| == |ps|
    ensures i <= out.stop <= |ps|
    ensures out.stop < |ps| ==> !Covers(rs[out.stop])
    ensures forall j :: 0 <= j < i ==> out.ps[j] == ps[j]
    ensures forall j :: i <= j < out.stop ==>
      Covers(rs[j]) && out.ps[j] == CloudCovered(ps[j], rs[j].pvs, depth)
    ensures out.stop < |ps| ==> out.ps[out.stop] == AfterFailure(ps[out.stop], rs[out.stop], depth)
    ensures forall j :: out.stop < j < |ps| ==> out.ps[j] == ps[j]
    ensures out.cutoff == (if out.stop == |ps| || rs[out.stop].TransportError? then None else PlaceCutoff(out.stop))
    decreases |ps| - i
  {
    if i == |ps| then CloudOutcome(ps, i, None)
    else
      match rs[i]
      case TransportError => CloudOutcome(ps, i, None)
      case NotOk => CloudOutcome(ps, i, PlaceCutoff(i))
      case Answer(pvs) =>
        var stored := ps[i := ps[i].(topLines := Some(ToLines(pvs, depth)))];
        if |stored[i].topLines.value| != 2 then CloudOutcome(stored, i, PlaceCutoff(i))
        else CloudWalk(stored[i := stored[i].(origin := CloudTag)], rs, depth, i + 1)
  }

  /** The whole cloud phase, starting at the first position. */
  function CloudPhase(ps: seq<Position>, rs: seq<Response>, depth: nat): CloudOutcome
    requires |rs| == |ps|
  {
    CloudWalk(ps, rs, depth, 0)
  }

  /** The progress the cloud loop reports after covering position `i`. */
  function CloudProgress(i: nat, n: nat): real
    requires n > 0
  {
    ((i + 1) as real / n as real) * 100.0
  }

  // ---------------------------------------------------------------------------
  // The cutoff evaluation
  // ---------------------------------------------------------------------------

  /** The cutoff evaluation stored from the cutoff worker's lines: the
      evaluation of the first line ranked 1, or zero centipawns if no line
      is ranked 1. */
  function CutoffValue(lines: seq<EngineLine>): (e: Evaluation)
    ensures (forall k :: 0 <= k < |lines| ==> lines[k].id != 1) ==> e == Evaluation(Cp, Num(0))
    ensures (exists k :: 0 <= k < |lines| && lines[k].id == 1) ==>
      exists k :: 0 <= k < |lines| && lines[k].id == 1 && e == lines[k].evaluation
        && forall j :: 0 <= j < k ==> lines[j].id != 1
  {
    if |lines| == 0 then Evaluation(Cp, Num(0))
    else if lines[0].id == 1 then lines[0].evaluation
    else
      var e := CutoffValue(lines[1..]);
      assert forall k :: 1 <= k < |lines| ==> lines[1..][k - 1] == lines[k];
      e
  }
}

=== FILE: handoff.dfy ===
/**
 The hand-off to the report: before the evaluated positions are posted to
 the scorer, every origin tag is collapsed to one of the two public values
 "cloud" and "local".
 */
module Handoff {
  import opened Types

  /** "cloud" stays "cloud"; anything else (untagged, a local worker, or
      already "local") becomes "local". */
  function NormaliseOrigin(o: Origin): (r: Origin)
    ensures r == CloudTag || r == LocalTag
    ensures r == CloudTag <==> o == CloudTag
  {
    if o == CloudTag then CloudTag else LocalTag
  }

  /** Every position keeps everything but its origin, which becomes "cloud"
      or "local". */
  function Normalise(ps: seq<Position>): (out: seq<Position>)
    ensures |out| == |ps|
    ensures forall i :: 0 <= i < |ps| ==>
      && out[i].fen == ps[i].fen
      && out[i].move == ps[i].move
      && out[i].topLines == ps[i].topLines
      && out[i].cutoffEvaluation == ps[i].cutoffEvaluation
      && (out[i].origin == CloudTag <==> ps[i].origin == CloudTag)
      && (out[i].origin != CloudTag ==> out[i].origin == LocalTag)
  {
    seq(|ps|, i requires 0 <= i < |ps| => ps[i].(origin := NormaliseOrigin(ps[i].origin)))
  }

  /** What the scorer receives: the same positions in the same order, with
      board, move, lines and cutoff evaluation untouched, and every origin
      "cloud" exactly when it was "cloud" before and "local" otherwise.
      Normalising a second time changes nothing. */
  lemma NormaliseSpec(ps: seq<Position>)
    ensures |Normalise(ps)| == |ps|
    ensures forall i :: 0 <= i < |ps| ==>
      var q := Normalise(ps)[i];
      && q.fen == ps[i].fen
      && q.move == ps[i].move
      && q.topLines == ps[i].topLines
      && q.cutoffEvaluation == ps[i].cutoffEvaluation
      && (q.origin == CloudTag <==> ps[i].origin == CloudTag)
      && (q.origin != CloudTag ==> q.origin == LocalTag)
    ensures Normalise(Normalise(ps)) == Normalise(ps)
  {
  }
}

=== FILE: orchestrator.dfy ===
/**
 The whole evaluation of one game as a transition system: the cloud phase
 runs first, then the local phase is driven by a sequence of events that
 interleave freely (ticks, worker completions, depth reports and the cutoff
 evaluation's answer) until a tick hands the positions to the report.
 */
module Orchestrator {
  import opened Types
  import opened Cloud
  import opened Scheduler
  import opened Handoff

  /** Something that can happen during the local phase. */
  datatype Event =
    | TickEvent
    | Delivered(id: nat, lines: seq<EngineLine>)
    | DepthReached(id: nat, d: nat)
    | CutoffArrived(lines: seq<EngineLine>)

  datatype Stepped = Done(report: seq<Position>) | Next(state: Sched)

  /** One event. An event that cannot happen in the current state (a second
      delivery by one worker, a depth report from a finished worker, a cutoff
      answer nobody asked for) leaves the state unchanged. */
  function Step(s: Sched, e: Event, depth: nat): (r: Stepped)
    requires |s.ps| > 0 && depth > 0
    ensures r.Next? ==> |r.state.ps| == |s.ps|
  {
    match e
    case TickEvent =>
      (match Tick(s, depth)
       case Finished(rep) => Done(rep)
       case Running(next, _) => Next(next))
    case Delivered(id, lines) =>
      if CanComplete(s, id) then Next(Complete(s, id, lines)) else Next(s)
    case DepthReached(id, d) =>
      if id < |s.workers| && !s.workers[id].done then Next(ReportDepth(s, id, d)) else Next(s)
    case CutoffArrived(lines) =>
      if s.pendingCutoff.Some? && s.pendingCutoff.value < |s.ps| then Next(ResolveCutoff(s, lines)) else Next(s)
  }

  datatype RunResult = Reported(positions: seq<Position>) | Waiting(state: Sched)

  /** The local phase under a given sequence of events: the positions handed
      to the report, or the state reached when the events run out. */
  function Run(s: Sched, events: seq<Event>, depth: nat): RunResult
    requires |s.ps| > 0 && depth > 0
    decreases |events|
  {
    if |events| == 0 then Waiting(s)
    else
      match Step(s, events[0], depth)
      case Done(rep) => Reported(rep)
      case Next(t) => Run(t, events[1..], depth)
  }

  /** The evaluation of a parsed game: cloud answers `rs`, then local events. */
  function Evaluate(ps: seq<Position>, rs: seq<Response>, depth: nat, events: seq<Event>): RunResult
    requires |ps| > 0 && depth > 0 && |rs| == |ps|
  {
    Run(Start(CloudPhase(ps, rs, depth)), events, depth)
  }

  // ---------------------------------------------------------------------------
  // What the local phase keeps
  // ---------------------------------------------------------------------------

  /** `t` is `s0` after some local events: same boards and moves, the same
      positions tagged "cloud" with the same lines, and a cutoff evaluation
      only ever on `target`. */
  predicate Follows(s0: Sched, t: Sched, target: Option<nat>) {
    && |t.ps| == |s0.ps|
    && (forall i :: 0 <= i < |t.ps| ==>
          && t.ps[i].fen == s0.ps[i].fen
          && t.ps[i].move == s0.ps[i].move
          && (t.ps[i].origin == CloudTag <==> s0.ps[i].origin == CloudTag)
          && (t.ps[i].origin == CloudTag ==> t.ps[i].topLines == s0.ps[i].topLines)
          && (t.ps[i].cutoffEvaluation.Some? ==> target == Some(i)))
    && (t.pendingCutoff.Some? ==> t.pendingCutoff == target)
  }

  /** One event that does not end the phase keeps the invariant and the
      relation to the starting state. */
  lemma StepKeeps(s0: Sched, t: Sched, e: Event, depth: nat, target: Option<nat>)
    requires |t.ps| > 0 && depth > 0
    requires Inv(t) && Follows(s0, t, target)
    requires Step(t, e, depth).Next?
    ensures Inv(Step(t, e, depth).state) && Follows(s0, Step(t, e, depth).state, target)
  {
    match e
    case TickEvent =>
      TickKeeps(s0, t, depth, target);
    case Delivered(id, lines) =>
      if CanComplete(t, id) {
        CompleteKeeps(s0, t, id, lines, depth, target);
      }
    case DepthReached(id, d) =>
      if id < |t.workers| && !t.workers[id].done {
        ReportDepthKeeps(s0, t, id, d, depth, target);
      }
    case CutoffArrived(lines) =>
      if t.pendingCutoff.Some? && t.pendingCutoff.value < |t.ps| {
        ResolveKeeps(s0, t, lines, target);
      }
  }

  /** The delivery case of `StepKeeps`. */
  lemma CompleteKeeps(s0: Sched, t: Sched, id: nat, lines: seq<EngineLine>, depth: nat, target: Option<nat>)
    requires Inv(t) && Follows(s0, t, target) && CanComplete(t, id)
    ensures Inv(Complete(t, id, lines)) && Follows(s0, Complete(t, id, lines), target)
  {
    CompleteSpec(t, id, lines, depth);
  }

  /** The depth-report case of `StepKeeps`. */
  lemma ReportDepthKeeps(s0: Sched, t: Sched, id: nat, d: nat, depth: nat, target: Option<nat>)
    requires Inv(t) && Follows(s0, t, target)
    requires id < |t.workers| && !t.workers[id].done
    ensures Inv(ReportDepth(t, id, d)) && Follows(s0, ReportDepth(t, id, d), target)
  {
    ReportDepthSpec(t, id, d, depth);
  }

  /** The cutoff-answer case of `StepKeeps`. */
  lemma ResolveKeeps(s0: Sched, t: Sched, lines: seq<EngineLine>, target: Option<nat>)
    requires Inv(t) && Follows(s0, t, target)
    requires t.pendingCutoff.Some? && t.pendingCutoff.value < |t.ps|
    ensures Inv(ResolveCutoff(t, lines)) && Follows(s0, ResolveCutoff(t, lines), target)
  {
    ResolveCutoffSpec(t, lines);
  }

  /** The tick case of `StepKeeps`: assignment only turns untagged
      positions into worker-tagged ones. */
  lemma TickKeeps(s0: Sched, t: Sched, depth: nat, target: Option<nat>)
    requires |t.ps| > 0 && depth > 0
    requires Inv(t) && Follows(s0, t, target)
    requires Tick(t, depth).Running?
    ensures Inv(Tick(t, depth).next) && Follows(s0, Tick(t, depth).next, target)
  {
    TickPreservesInv(t, depth);
    assert Tick(t, depth).next == AssignFrom(t, 0);
    AssignFromFollows(s0, t, target);
  }

  /** The assignment loop keeps a state following `s0`. */
  lemma AssignFromFollows(s0: Sched, t: Sched, target: Option<nat>)
    requires Follows(s0, t, target)
    ensures Follows(s0, AssignFrom(t, 0), target)
  {
    AssignFromSpec(t, 0);
    var u := UntaggedFrom(t.ps, 0);
    var m := Slots(t.count, |u|);
    var r := AssignFrom(t, 0);
    AssignedKeepsOther(t, r, u, m);
    forall i | 0 <= i < |t.ps|
      ensures r.ps[i].origin == CloudTag <==> t.ps[i].origin == CloudTag
    {
      if i in u[..m] {
        var k :| 0 <= k < m && u[k] == i;
      }
    }
  }

  /** A tick that ends the phase hands over the positions it saw. */
  lemma StepReports(t: Sched, e: Event, depth: nat)
    requires |t.ps| > 0 && depth > 0
    requires Step(t, e, depth).Done?
    ensures e.TickEvent? && Step(t, e, depth).report == Normalise(t.ps)
    ensures forall i :: 0 <= i < |t.ps| ==> t.ps[i].topLines.Some?
  {
  }

  /** Over any sequence of events, the invariant holds in every reachable
      state, and a report, if one is made, holds every position in order with
      its board and move, with lines on every position, "cloud" exactly on
      the positions that were "cloud" (with their cloud lines), "local"
      everywhere else, and a cutoff evaluation at most on `target`. */
  lemma {:induction false} RunSafe(s0: Sched, t: Sched, events: seq<Event>, depth: nat, target: Option<nat>)
    requires |t.ps| > 0 && depth > 0
    requires Inv(t) && Follows(s0, t, target)
    ensures Run(t, events, depth).Waiting? ==>
      Inv(Run(t, events, depth).state) && Follows(s0, Run(t, events, depth).state, target)
    ensures Run(t, events, depth).Reported? ==>
      var rep := Run(t, events, depth).positions;
      && |rep| == |s0.ps|
      && forall i :: 0 <= i < |rep| ==>
           && rep[i].fen == s0.ps[i].fen
           && rep[i].move == s0.ps[i].move
           && rep[i].topLines.Some?
           && (rep[i].origin == CloudTag <==> s0.ps[i].origin == CloudTag)
           && (rep[i].origin != CloudTag ==> rep[i].origin == LocalTag)
           && (rep[i].origin == CloudTag ==> rep[i].topLines == s0.ps[i].topLines)
           && (rep[i].cutoffEvaluation.Some? ==> target == Some(i))
    decreases |events|
  {
    if |events| > 0 {
      match Step(t, events[0], depth)
      case Done(rep) =>
        StepReports(t, events[0], depth);
        NormaliseSpec(t.ps);
      case Next(t') =>
        StepKeeps(s0, t, events[0], depth, target);
        RunSafe(s0, t', events[1..], depth, target);
    }
  }

  /** The whole evaluation of a freshly parsed game. If it reports, the
      report covers every position in order with its board and move; every
      position holds lines; the positions tagged "cloud" are exactly those
      before the first position the cloud could not cover, and they hold the
      lines built from their cloud answers; every other position is "local";
      and a cutoff evaluation appears at most on the position just before
      the first uncovered one, and only if the cloud phase did not end on a
      transport error. */
  lemma EvaluateSpec(ps: seq<Position>, rs: seq<Response>, depth: nat, events: seq<Event>)
    requires |ps| > 0 && depth > 0 && |rs| == |ps|
    requires forall i :: 0 <= i < |ps| ==> Fresh(ps[i])
    ensures Evaluate(ps, rs, depth, events).Reported? ==>
      var rep := Evaluate(ps, rs, depth, events).positions;
      var k := CloudPhase(ps, rs, depth).stop;
      && |rep| == |ps|
      && forall i :: 0 <= i < |rep| ==>
           && rep[i].fen == ps[i].fen
           && rep[i].move == ps[i].move
           && rep[i].topLines.Some?
           && (rep[i].origin == CloudTag <==> i < k)
           && (i >= k ==> rep[i].origin == LocalTag)
           && (i < k ==> Covers(rs[i]) && rep[i].topLines == Some(ToLines(rs[i].pvs, depth)))
           && (rep[i].cutoffEvaluation.Some? ==> i + 1 == k < |ps| && !rs[k].TransportError?)
  {
    var out := CloudPhase(ps, rs, depth);
    var s0 := Start(out);
    StartInv(ps, rs, depth);
    assert Follows(s0, s0, out.cutoff);
    RunSafe(s0, s0, events, depth, out.cutoff);
  }

  // ---------------------------------------------------------------------------
  // Scenarios
  // ---------------------------------------------------------------------------

  lemma {:induction false} UntaggedAll(ps: seq<Position>, i: nat)
    requires i <= |ps|
    requires forall j :: i <= j < |ps| ==> ps[j].origin == NoWorker
    ensures |UntaggedFrom(ps, i)| == |ps| - i
    ensures forall k :: 0 <= k < |ps| - i ==> UntaggedFrom(ps, i)[k] == i + k
    decreases |ps| - i
  {
    if i < |ps| {
      UntaggedAll(ps, i + 1);
      assert ps[i].origin.NoWorker?;
      ConsRun(i, UntaggedFrom(ps, i + 1));
    }
  }

  /** Prepending `i` to the run `i+1, i+2, ...` gives the run `i, i+1, ...`. */
  lemma ConsRun(i: nat, rest: seq<nat>)
    requires forall k :: 0 <= k < |rest| ==> rest[k] == i + 1 + k
    ensures forall k :: 0 <= k < |rest| + 1 ==> ([i] + rest)[k] == i + k
  {
    forall k | 0 < k < |rest| + 1
      ensures ([i] + rest)[k] == i + k
    {
      assert ([i] + rest)[k] == rest[k - 1];
    }
  }

  /** The cloud phase of a three-position game whose first position the
      cloud covers and whose second it answers "not ok". */
  lemma CloudThenNotOk(ps: seq<Position>, rs: seq<Response>, depth: nat)
    requires |ps| == 3 && |rs| == 3 && depth > 0
    requires forall i :: 0 <= i < 3 ==> Fresh(ps[i])
    requires Covers(rs[0]) && rs[1] == NotOk
    ensures
      var out := CloudPhase(ps, rs, depth);
      && out.stop == 1
      && out.cutoff == Some(0)
      && |out.ps| == 3
      && out.ps[0].origin == CloudTag
      && out.ps[0].topLines == Some(ToLines(rs[0].pvs, depth))
      && out.ps[1].origin == NoWorker && out.ps[1].topLines.None?
      && out.ps[2].origin == NoWorker
  {
    assert CloudPhase(ps, rs, depth).stop == 1;
  }

  /** A first tick on three positions of which only the first is tagged and
      the second has no lines starts worker 0 on the second position and
      worker 1 on the third. */
  lemma FirstTickOnLastTwo(s: Sched, depth: nat)
    requires |s.ps| == 3 && depth > 0
    requires s.workers == [] && s.count == 0
    requires s.ps[0].origin == CloudTag && s.ps[1].origin == NoWorker && s.ps[2].origin == NoWorker
    requires s.ps[1].topLines.None?
    ensures
      var r := Tick(s, depth);
      && r.Running?
      && r.next == Launch(Launch(s, 1), 2)
  {
    assert !AllEvaluated(s.ps);
    var s1 := Launch(s, 1);
    assert AssignFrom(s, 0) == AssignFrom(s, 1) == AssignFrom(s1, 2);
    assert AssignFrom(s1, 2) == AssignFrom(Launch(s1, 2), 3);
  }

  /** Three positions; the cloud covers the first and answers "not ok" for
      the second: the cutoff evaluation is requested for the first, and the
      first tick starts workers on the second and third. */
  lemma ScenarioCutoffThenLocal(ps: seq<Position>, rs: seq<Response>, depth: nat)
    requires |ps| == 3 && |rs| == 3 && depth > 0
    requires forall i :: 0 <= i < 3 ==> Fresh(ps[i])
    requires Covers(rs[0]) && rs[1] == NotOk
    ensures CloudPhase(ps, rs, depth).stop == 1
    ensures CloudPhase(ps, rs, depth).cutoff == Some(0)
    ensures
      var r := Tick(Start(CloudPhase(ps, rs, depth)), depth);
      && r.Running?
      && r.next.count == 2
      && r.next.ps[0].origin == CloudTag
      && r.next.ps[0].topLines == Some(ToLines(rs[0].pvs, depth))
      && r.next.ps[1].origin == Local(0)
      && r.next.ps[2].origin == Local(1)
      && r.next.workers == [Worker(1, 0, false), Worker(2, 0, false)]
      && r.next.pendingCutoff == Some(0)
  {
    CloudThenNotOk(ps, rs, depth);
    FirstTickOnLastTwo(Start(CloudPhase(ps, rs, depth)), depth);
  }

  /** The same game carried through the local phase: both workers deliver,
      the cutoff evaluation arrives, and the next tick reports the game with
      the first position "cloud" and carrying the cutoff evaluation, and the
      other two "local" with the lines their workers delivered. */
  lemma ScenarioReportThroughWorkers(ps: seq<Position>, rs: seq<Response>, depth: nat, a: seq<EngineLine>, b: seq<EngineLine>, c: seq<EngineLine>)
    requires |ps| == 3 && |rs| == 3 && depth > 0
    requires forall i :: 0 <= i < 3 ==> Fresh(ps[i])
    requires Covers(rs[0]) && rs[1] == NotOk
    ensures
      var r := Evaluate(ps, rs, depth, [TickEvent, Delivered(0, a), Delivered(1, b), CutoffArrived(c), TickEvent]);
      && r.Reported?
      && |r.positions| == 3
      && r.positions[0].origin == CloudTag
      && r.positions[0].cutoffEvaluation == Some(CutoffValue(c))
      && r.positions[1].origin == LocalTag && r.positions[1].topLines == Some(a)
      && r.positions[2].origin == LocalTag && r.positions[2].topLines == Some(b)
  {
    ScenarioCutoffThenLocal(ps, rs, depth);
    var s0 := Start(CloudPhase(ps, rs, depth));
    var t1 := Tick(s0, depth).next;
    LocalPhaseOfThree(t1, depth, a, b, c);
    var es := [TickEvent, Delivered(0, a), Delivered(1, b), CutoffArrived(c), TickEvent];
    assert Run(s0, es, depth) == Run(t1, es[1..], depth);
    assert es[1..] == [Delivered(0, a), Delivered(1, b), CutoffArrived(c), TickEvent];
  }

  /** The events after the first tick of `ScenarioReportThroughWorkers`, on
      any state of that shape. */
  lemma LocalPhaseOfThree(t1: Sched, depth: nat, a: seq<EngineLine>, b: seq<EngineLine>, c: seq<EngineLine>)
    requires |t1.ps| == 3 && depth > 0
    requires t1.ps[0].origin == CloudTag && t1.ps[0].topLines.Some?
    requires t1.ps[1].origin == Local(0) && t1.ps[2].origin == Local(1)
    requires t1.workers == [Worker(1, 0, false), Worker(2, 0, false)]
    requires t1.pendingCutoff == Some(0)
    ensures
      var r := Run(t1, [Delivered(0, a), Delivered(1, b), CutoffArrived(c), TickEvent], depth);
      && r.Reported?
      && |r.positions| == 3
      && r.positions[0].origin == CloudTag
      && r.positions[0].cutoffEvaluation == Some(CutoffValue(c))
      && r.positions[1].origin == LocalTag && r.positions[1].topLines == Some(a)
      && r.positions[2].origin == LocalTag && r.positions[2].topLines == Some(b)
  {
    var t2 := Complete(t1, 0, a);
    var t3 := Complete(t2, 1, b);
    var t4 := ResolveCutoff(t3, c);
    assert AllEvaluated(t4.ps);
    var es := [Delivered(0, a), Delivered(1, b), CutoffArrived(c), TickEvent];
    assert Run(t4, es[3..], depth) == Reported(Normalise(t4.ps));
    assert Run(t3, es[2..], depth) == Run(t4, es[3..], depth);
    assert Run(t2, es[1..], depth) == Run(t3, es[2..], depth);
    assert Run(t1, es, depth) == Run(t2, es[1..], depth);
  }

  /** A game with no moves whose only position the cloud covers: the first
      tick reports it as "cloud" without any worker and with no cutoff. */
  lemma ScenarioSingleCloudPosition(ps: seq<Position>, rs: seq<Response>, depth: nat)
    requires |ps| == 1 && |rs| == 1 && depth > 0
    requires Fresh(ps[0]) && Covers(rs[0])
    ensures
      var out := CloudPhase(ps, rs, depth);
      var r := Tick(Start(out), depth);
      && out.cutoff.None?
      && r.Finished?
      && r.report[0].origin == CloudTag
      && r.report[0].cutoffEvaluation.None?
      && |r.report[0].topLines.value| == 2
  {
  }

  /** A first tick on positions none of which is tagged starts workers on
      the first `min(Cap, n)` of them, in order, and leaves the rest alone. */
  lemma FirstTickAllUntagged(s: Sched, depth: nat)
    requires |s.ps| > 0 && depth > 0
    requires s.count == 0 && s.workers == []
    requires forall j :: 0 <= j < |s.ps| ==> s.ps[j].origin == NoWorker
    requires exists j :: 0 <= j < |s.ps| && s.ps[j].topLines.None?
    ensures
      var r := Tick(s, depth);
      var m := if |s.ps| < Cap then |s.ps| else Cap;
      && r.Running?
      && r.next.count == m
      && (forall i :: 0 <= i < m ==> r.next.ps[i].origin == Local(i))
      && (forall i :: m <= i < |s.ps| ==> r.next.ps[i].origin == NoWorker)
  {
    assert !AllEvaluated(s.ps);
    AssignAllUntagged(s);
  }

  lemma AssignAllUntagged(s: Sched)
    requires s.count == 0 && s.workers == []
    requires forall j :: 0 <= j < |s.ps| ==> s.ps[j].origin == NoWorker
    ensures
      var r := AssignFrom(s, 0);
      var m := if |s.ps| < Cap then |s.ps| else Cap;
      && r.count == m
      && (forall i :: 0 <= i < m ==> r.ps[i].origin == Local(i))
      && (forall i :: m <= i < |s.ps| ==> r.ps[i].origin == NoWorker)
  {
    UntaggedAll(s.ps, 0);
    AssignFromSpec(s, 0);
    var u := UntaggedFrom(s.ps, 0);
    AssignedInOrder(s, AssignFrom(s, 0), u, Slots(0, |u|));
  }

  /** An assignment from no workers to the run `0, 1, ...` tags the first
      `m` positions with workers `0..m-1` and leaves the rest unchanged. */
  lemma AssignedInOrder(s: Sched, r: Sched, u: seq<nat>, m: nat)
    requires s.workers == [] && m <= |s.ps|
    requires Assigned(s, r, u, m)
    requires forall k :: 0 <= k < |u| ==> u[k] == k
    ensures forall i :: 0 <= i < m ==> r.ps[i].origin == Local(i)
    ensures forall i :: m <= i < |s.ps| ==> r.ps[i] == s.ps[i]
  {
    forall i | 0 <= i < m
      ensures r.ps[i].origin == Local(i)
    {
      assert u[i] == i;
    }
    forall i | m <= i < |s.ps|
      ensures r.ps[i] == s.ps[i]
    {
      assert forall k :: 0 <= k < m ==> u[..m][k] < m;
    }
  }

  /** Ten positions and the cloud fails on the first: no cutoff evaluation,
      and the first tick starts eight workers on positions 0 to 7, leaving 8
      and 9 untagged. */
  lemma ScenarioCapOfEight(ps: seq<Position>, rs: seq<Response>, depth: nat)
    requires |ps| == 10 && |rs| == 10 && depth > 0
    requires forall i :: 0 <= i < 10 ==> Fresh(ps[i])
    requires !Covers(rs[0])
    ensures CloudPhase(ps, rs, depth).cutoff.None?
    ensures
      var r := Tick(Start(CloudPhase(ps, rs, depth)), depth);
      && r.Running?
      && r.next.count == 8
      && (forall i :: 0 <= i < 8 ==> r.next.ps[i].origin == Local(i))
      && r.next.ps[8].origin == NoWorker
      && r.next.ps[9].origin == NoWorker
  {
    var out := CloudPhase(ps, rs, depth);
    var s := Start(out);
    assert out.stop == 0;
    assert s.ps[9].topLines.None?;
    FirstTickAllUntagged(s, depth);
  }

  /** The cloud answering with a single line for the only position stores
      that line, and the first tick then reports the game with one line for
      the position and no worker ever started: the termination test only
      asks for lines to be present. */
  lemma ScenarioShortCloudAnswerReported(ps: seq<Position>, pv: CloudPv, depth: nat)
    requires |ps| == 1 && depth > 0 && Fresh(ps[0])
    ensures
      var out := CloudPhase(ps, [Answer([pv])], depth);
      var r := Tick(Start(out), depth);
      && out.stop == 0
      && out.cutoff.None?
      && r.Finished?
      && |r.report[0].topLines.value| == 1
      && r.report[0].origin == LocalTag
  {
  }

  /** A transport error on the second position ends the cloud phase there
      without asking for a cutoff evaluation, although the first position was
      covered. */
  lemma ScenarioTransportErrorNoCutoff(ps: seq<Position>, rs: seq<Response>, depth: nat)
    requires |ps| == 2 && |rs| == 2 && depth > 0
    requires Covers(rs[0]) && rs[1] == TransportError
    ensures CloudPhase(ps, rs, depth).stop == 1
    ensures CloudPhase(ps, rs, depth).cutoff.None?
    ensures CloudPhase(ps, rs, depth).ps[1] == ps[1]
  {
  }
}

=== FILE: progress.dfy ===
/**
 The progress figure shown while the local workers run: the depth reached
 over all positions as a percentage of the target depth times the number of
 positions.
 */
module ProgressTracker {
  import opened Types
  import Cloud

  /** The depth one position contributes: the target depth for a string tag
      ("cloud" or "local"), the worker's currently reported depth for a local
      worker (finished or not), nothing for an untagged position. */
  function Contribution(o: Origin, workers: seq<Worker>, depth: nat): (d: nat)
    ensures o.NoWorker? ==> d == 0
    ensures (o.CloudTag? || o.LocalTag?) ==> d == depth
    ensures o.Local? && o.id < |workers| ==> d == workers[o.id].depth
  {
    match o
    case NoWorker => 0
    case CloudTag => depth
    case LocalTag => depth
    case Local(id) => if id < |workers| then workers[id].depth else 0
  }

  function DepthSum(ps: seq<Position>, workers: seq<Worker>, depth: nat): nat
  {
    if |ps| == 0 then 0
    else Contribution(ps[0].origin, workers, depth) + DepthSum(ps[1..], workers, depth)
  }

  /** The percentage the scheduler reports after a tick. */
  function Progress(ps: seq<Position>, workers: seq<Worker>, depth: nat): real
    requires |ps| > 0 && depth > 0
  {
    100.0 * (DepthSum(ps, workers, depth) as real) / ((|ps| * depth) as real)
  }

  /** No worker reports more than the target depth. */
  predicate DepthsWithinTarget(workers: seq<Worker>, depth: nat) {
    forall id :: 0 <= id < |workers| ==> workers[id].depth <= depth
  }

  /** Summing is monotone: if every position contributes at most as much in
      one state as in another, the totals compare the same way. */
  lemma {:induction false} DepthSumMono(ps: seq<Position>, ws: seq<Worker>, qs: seq<Position>, vs: seq<Worker>, depth: nat)
    requires |ps| == |qs|
    requires forall i :: 0 <= i < |ps| ==> Contribution(ps[i].origin, ws, depth) <= Contribution(qs[i].origin, vs, depth)
    ensures DepthSum(ps, ws, depth) <= DepthSum(qs, vs, depth)
  {
    if |ps| > 0 {
      assert forall i :: 0 <= i < |ps| - 1 ==> ps[1..][i] == ps[i + 1] && qs[1..][i] == qs[i + 1];
      DepthSumMono(ps[1..], ws, qs[1..], vs, depth);
    }
  }

  /** Two states whose positions contribute the same depth one by one report
      the same total. */
  lemma DepthSumSame(ps: seq<Position>, ws: seq<Worker>, qs: seq<Position>, vs: seq<Worker>, depth: nat)
    requires |ps| == |qs|
    requires forall i :: 0 <= i < |ps| ==> Contribution(ps[i].origin, ws, depth) == Contribution(qs[i].origin, vs, depth)
    ensures DepthSum(ps, ws, depth) == DepthSum(qs, vs, depth)
  {
    DepthSumMono(ps, ws, qs, vs, depth);
    DepthSumMono(qs, vs, ps, ws, depth);
  }

  /** Each position contributes at most the target depth when no worker
      reports more than it, so the total is at most `|ps| * depth`. */
  lemma {:induction false} DepthSumAtMostFull(ps: seq<Position>, ws: seq<Worker>, depth: nat)
    requires DepthsWithinTarget(ws, depth)
    ensures DepthSum(ps, ws, depth) <= |ps| * depth
  {
    if |ps| > 0 {
      DepthSumAtMostFull(ps[1..], ws, depth);
      assert Contribution(ps[0].origin, ws, depth) <= depth;
      assert (|ps| - 1) * depth + depth == |ps| * depth;
    }
  }

  /** The first `m` positions tagged "cloud" and the rest untagged sum to
      `m` times the target depth. */
  lemma {:induction false} DepthSumCloudPrefix(ps: seq<Position>, ws: seq<Worker>, depth: nat, m: nat)
    requires m <= |ps|
    requires forall j :: 0 <= j < m ==> ps[j].origin == CloudTag
    requires forall j :: m <= j < |ps| ==> ps[j].origin == NoWorker
    ensures DepthSum(ps, ws, depth) == m * depth
  {
    if |ps| > 0 {
      assert forall j :: 0 <= j < |ps| - 1 ==> ps[1..][j] == ps[j + 1];
      if m == 0 {
        DepthSumCloudPrefix(ps[1..], ws, depth, 0);
      } else {
        DepthSumCloudPrefix(ps[1..], ws, depth, m - 1);
      }
    }
  }

  /** Progress is 0 when nothing is tagged yet. */
  lemma ProgressNothingTagged(ps: seq<Position>, ws: seq<Worker>, depth: nat)
    requires |ps| > 0 && depth > 0
    requires forall j :: 0 <= j < |ps| ==> ps[j].origin == NoWorker
    ensures Progress(ps, ws, depth) == 0.0
  {
    DepthSumCloudPrefix(ps, ws, depth, 0);
  }

  /** Progress is 100 when every position came from the cloud. */
  lemma ProgressAllCloud(ps: seq<Position>, ws: seq<Worker>, depth: nat)
    requires |ps| > 0 && depth > 0
    requires forall j :: 0 <= j < |ps| ==> ps[j].origin == CloudTag
    ensures Progress(ps, ws, depth) == 100.0
  {
    DepthSumCloudPrefix(ps, ws, depth, |ps|);
    PercentFull(|ps| * depth);
  }

  /** Progress is a percentage as long as no worker reports more than the
      target depth. */
  lemma ProgressBounds(ps: seq<Position>, ws: seq<Worker>, depth: nat)
    requires |ps| > 0 && depth > 0
    requires DepthsWithinTarget(ws, depth)
    ensures 0.0 <= Progress(ps, ws, depth) <= 100.0
  {
    DepthSumAtMostFull(ps, ws, depth);
    PercentAtMost(DepthSum(ps, ws, depth), |ps| * depth);
  }

  /** The figure the cloud loop reports after covering positions 0..i is the
      figure the scheduler's formula gives for that state. */
  lemma CloudProgressAgrees(ps: seq<Position>, ws: seq<Worker>, depth: nat, i: nat)
    requires depth > 0 && i < |ps|
    requires forall j :: 0 <= j <= i ==> ps[j].origin == CloudTag
    requires forall j :: i < j < |ps| ==> ps[j].origin == NoWorker
    ensures Progress(ps, ws, depth) == Cloud.CloudProgress(i, |ps|)
  {
    DepthSumCloudPrefix(ps, ws, depth, i + 1);
    PercentScaled(i + 1, |ps|, depth);
  }

  // Real-number facts about the percentage formula, kept apart from the
  // sequences so that the solver sees only the arithmetic.

  lemma PercentFull(full: nat)
    requires full > 0
    ensures 100.0 * (full as real) / (full as real) == 100.0
  {
  }

  lemma PercentAtMost(s: nat, full: nat)
    requires 0 < full && s <= full
    ensures 0.0 <= 100.0 * (s as real) / (full as real) <= 100.0
  {
  }

  lemma PercentScaled(k: nat, n: nat, d: nat)
    requires n > 0 && d > 0
    ensures 100.0 * ((k * d) as real) / ((n * d) as real) == (k as real / n as real) * 100.0
  {
  }
}

=== FILE: scheduler.dfy ===
/**
 The local phase: a periodic tick that stops once every position holds its
 lines, and otherwise hands untagged positions to new local workers in list
 order while at most `Cap` workers are in flight; worker completions, depth
 reports and the cutoff evaluation's answer arrive as separate events.
 */
module Scheduler {
  import opened Types
  import opened ProgressTracker
  import opened Handoff
  import Cloud

  /** The scheduler's state: the shared position list, every worker ever
      created (a worker's identity is its index here), the in-flight counter,
      and the position whose cutoff evaluation has been requested but has not
      arrived. */
  datatype Sched = Sched(ps: seq<Position>, workers: seq<Worker>, count: int, pendingCutoff: Option<nat>)

  /** The state the cloud phase leaves behind: no worker yet, counter 0. */
  function Start(out: Cloud.CloudOutcome): Sched
  {
    Sched(out.ps, [], 0, out.cutoff)
  }

  /** The number of workers whose result has not been delivered. */
  function Pending(ws: seq<Worker>): nat
  {
    if |ws| == 0 then 0
    else Pending(ws[..|ws| - 1]) + (if ws[|ws| - 1].done then 0 else 1)
  }

  /** A position tagged with a worker is the position that worker evaluates,
      and every worker evaluates a position tagged with it (so no position
      ever has two workers). */
  predicate Owned(s: Sched) {
    && (forall i :: 0 <= i < |s.ps| && s.ps[i].origin.Local? ==>
          s.ps[i].origin.id < |s.workers| && s.workers[s.ps[i].origin.id].pos == i)
    && (forall id :: 0 <= id < |s.workers| ==>
          s.workers[id].pos < |s.ps| && s.ps[s.workers[id].pos].origin == Local(id))
  }

  /** The in-flight counter is the number of undelivered workers, at most `Cap`. */
  predicate Counted(s: Sched) {
    s.count == Pending(s.workers) && s.count <= Cap
  }

  /** At most one position carries a cutoff evaluation, and none does while
      the requested one is still outstanding. */
  predicate OneCutoff(s: Sched) {
    && (forall i, j ::
          (0 <= i < |s.ps| && 0 <= j < |s.ps| &&
           s.ps[i].cutoffEvaluation.Some? && s.ps[j].cutoffEvaluation.Some?) ==> i == j)
    && (s.pendingCutoff.Some? ==>
          && s.pendingCutoff.value < |s.ps|
          && forall i :: 0 <= i < |s.ps| ==> s.ps[i].cutoffEvaluation.None?)
  }

  /** The scheduler's invariant. */
  predicate Inv(s: Sched) {
    Owned(s) && Counted(s) && OneCutoff(s)
  }

  // ---------------------------------------------------------------------------
  // Assignment
  // ---------------------------------------------------------------------------

  /** The indices, from `i` on and in increasing order, of the positions with
      no origin tag. */
  function UntaggedFrom(ps: seq<Position>, i: nat): (u: seq<nat>)
    requires i <= |ps|
    ensures forall k :: 0 <= k < |u| ==> i <= u[k] < |ps| && ps[u[k]].origin.NoWorker?
    ensures forall k, l :: 0 <= k < l < |u| ==> u[k] < u[l]
    ensures forall j :: i <= j < |ps| && ps[j].origin.NoWorker? ==> j in u
    decreases |ps| - i
  {
    if i == |ps| then []
    else if ps[i].origin.NoWorker? then [i] + UntaggedFrom(ps, i + 1)
    else UntaggedFrom(ps, i + 1)
  }

  /** How many of `untagged` positions a tick can start when `count` workers
      are in flight. */
  function Slots(count: int, untagged: nat): (m: nat)
    ensures m <= untagged
    ensures count <= Cap ==> count + m <= Cap
    ensures m < untagged ==> count + m >= Cap
    ensures count < Cap && untagged > 0 ==> m > 0
  {
    var free := if count >= Cap then 0 else Cap - count;
    if free < untagged then free else untagged
  }

  /** Starts a new worker on position `i` and tags the position with it. */
  function Launch(s: Sched, i: nat): Sched
    requires i < |s.ps|
  {
    s.(ps := s.ps[i := s.ps[i].(origin := Local(|s.workers|))],
       workers := s.workers + [Worker(i, 0, false)],
       count := s.count + 1)
  }

  /** The assignment loop of a tick from index `i` on: a position already
      tagged, or any position once `Cap` workers are in flight, is skipped. */
  function AssignFrom(s: Sched, i: nat): (r: Sched)
    requires i <= |s.ps|
    ensures |r.ps| == |s.ps|
    decreases |s.ps| - i
  {
    if i == |s.ps| then s
    else if s.ps[i].origin != NoWorker || s.count >= Cap then AssignFrom(s, i + 1)
    else AssignFrom(Launch(s, i), i + 1)
  }

  /** The untagged list from `i` on depends only on the origins from `i` on. */
  lemma {:induction false} UntaggedFromFrame(ps: seq<Position>, qs: seq<Position>, i: nat)
    requires i <= |ps| == |qs|
    requires forall j :: i <= j < |ps| ==> ps[j].origin.NoWorker? == qs[j].origin.NoWorker?
    ensures UntaggedFrom(ps, i) == UntaggedFrom(qs, i)
    decreases |ps| - i
  {
    if i < |ps| {
      UntaggedFromFrame(ps, qs, i + 1);
    }
  }

  /** `r` is `s` after starting workers on the first `m` positions of `u`,
      in that order and with consecutive worker identities, leaving every
      other position, and every existing worker, as it was. */
  predicate Assigned(s: Sched, r: Sched, u: seq<nat>, m: nat) {
    && m <= |u|
    && |r.ps| == |s.ps|
    && r.count == s.count + m
    && r.pendingCutoff == s.pendingCutoff
    && |r.workers| == |s.workers| + m
    && r.workers[..|s.workers|] == s.workers
    && (forall k :: 0 <= k < m ==> r.workers[|s.workers| + k] == Worker(u[k], 0, false))
    && (forall k :: 0 <= k < m ==> u[k] < |s.ps| && r.ps[u[k]] == s.ps[u[k]].(origin := Local(|s.workers| + k)))
    && (forall j :: 0 <= j < |s.ps| && j !in u[..m] ==> r.ps[j] == s.ps[j])
  }

  /** One launch in front of an assignment is an assignment one longer. */
  lemma LaunchThenAssigned(s: Sched, i: nat, r: Sched, u: seq<nat>, m: nat)
    requires i < |s.ps|
    requires forall k :: 0 <= k < |u| ==> i < u[k]
    requires Assigned(Launch(s, i), r, u, m)
    ensures Assigned(s, r, [i] + u, m + 1)
  {
    LaunchThenWorkers(s, i, r, u, m);
    LaunchThenPositions(s, i, r, u, m);
  }

  /** The workers half of `LaunchThenAssigned`. */
  lemma LaunchThenWorkers(s: Sched, i: nat, r: Sched, u: seq<nat>, m: nat)
    requires i < |s.ps|
    requires Assigned(Launch(s, i), r, u, m)
    ensures r.workers[..|s.workers|] == s.workers
    ensures forall k :: 0 <= k < m + 1 ==> r.workers[|s.workers| + k] == Worker(([i] + u)[k], 0, false)
  {
    var s' := Launch(s, i);
    var n := |s.workers|;
    var v := [i] + u;
    assert r.workers[..n] == r.workers[..n + 1][..n] == s'.workers[..n] == s.workers;
    assert r.workers[n] == r.workers[..n + 1][n] == Worker(i, 0, false);
    forall k | 0 <= k < m + 1
      ensures r.workers[n + k] == Worker(v[k], 0, false)
    {
      if k > 0 {
        assert r.workers[(n + 1) + (k - 1)] == Worker(u[k - 1], 0, false);
      }
    }
  }

  /** The positions half of `LaunchThenAssigned`. */
  lemma LaunchThenPositions(s: Sched, i: nat, r: Sched, u: seq<nat>, m: nat)
    requires i < |s.ps|
    requires forall k :: 0 <= k < |u| ==> i < u[k]
    requires Assigned(Launch(s, i), r, u, m)
    ensures forall k :: 0 <= k < m + 1 ==>
      ([i] + u)[k] < |s.ps| && r.ps[([i] + u)[k]] == s.ps[([i] + u)[k]].(origin := Local(|s.workers| + k))
    ensures forall j :: 0 <= j < |s.ps| && j !in ([i] + u)[..m + 1] ==> r.ps[j] == s.ps[j]
  {
    LaunchThenStarted(s, i, r, u, m);
    LaunchThenUntouched(s, i, r, u, m);
  }

  /** The positions `LaunchThenAssigned` starts workers on. */
  lemma LaunchThenStarted(s: Sched, i: nat, r: Sched, u: seq<nat>, m: nat)
    requires i < |s.ps|
    requires forall k :: 0 <= k < |u| ==> i < u[k]
    requires Assigned(Launch(s, i), r, u, m)
    ensures forall k :: 0 <= k < m + 1 ==>
      ([i] + u)[k] < |s.ps| && r.ps[([i] + u)[k]] == s.ps[([i] + u)[k]].(origin := Local(|s.workers| + k))
  {
    var s' := Launch(s, i);
    var n := |s.workers|;
    var v := [i] + u;
    assert i !in u[..m];
    forall k | 0 <= k < m + 1
      ensures v[k] < |s.ps| && r.ps[v[k]] == s.ps[v[k]].(origin := Local(n + k))
    {
      if k > 0 {
        assert v[k] == u[k - 1] != i;
        assert r.ps[u[k - 1]] == s'.ps[u[k - 1]].(origin := Local((n + 1) + (k - 1)));
      }
    }
  }

  /** The positions `LaunchThenAssigned` leaves alone. */
  lemma LaunchThenUntouched(s: Sched, i: nat, r: Sched, u: seq<nat>, m: nat)
    requires i < |s.ps|
    requires Assigned(Launch(s, i), r, u, m)
    ensures forall j :: 0 <= j < |s.ps| && j !in ([i] + u)[..m + 1] ==> r.ps[j] == s.ps[j]
  {
    assert ([i] + u)[..m + 1] == [i] + u[..m];
  }

  /** `LaunchThenAssigned` with the longer list and count named by the caller. */
  lemma LaunchThenAssignedAs(s: Sched, i: nat, r: Sched, u: seq<nat>, m: nat, v: seq<nat>, n: nat)
    requires i < |s.ps|
    requires forall k :: 0 <= k < |u| ==> i < u[k]
    requires Assigned(Launch(s, i), r, u, m)
    requires v == [i] + u && n == m + 1
    ensures Assigned(s, r, v, n)
  {
    LaunchThenAssigned(s, i, r, u, m);
  }

  /** The assignment loop starts workers on exactly the first `m` untagged
      positions from `i` on, where `m` is as many as the cap allows. */
  lemma {:induction false} AssignFromSpec(s: Sched, i: nat)
    requires i <= |s.ps|
    ensures Assigned(s, AssignFrom(s, i), UntaggedFrom(s.ps, i), Slots(s.count, |UntaggedFrom(s.ps, i)|))
    decreases |s.ps| - i
  {
    if i == |s.ps| {
      assert AssignFrom(s, i).workers[..|s.workers|] == s.workers;
    } else if s.ps[i].origin != NoWorker {
      AssignFromSpec(s, i + 1);
      assert AssignFrom(s, i) == AssignFrom(s, i + 1);
      SkipTagged(s, i, AssignFrom(s, i + 1));
    } else if s.count >= Cap {
      AssignFromSpec(s, i + 1);
      assert AssignFrom(s, i) == AssignFrom(s, i + 1);
      SkipFull(s, i, AssignFrom(s, i + 1));
    } else {
      AssignFromSpec(Launch(s, i), i + 1);
      assert AssignFrom(s, i) == AssignFrom(Launch(s, i), i + 1);
      LaunchStep(s, i, AssignFrom(Launch(s, i), i + 1));
    }
  }

  /** The step of `AssignFromSpec` past a tagged position. */
  lemma SkipTagged(s: Sched, i: nat, r: Sched)
    requires i < |s.ps| && s.ps[i].origin != NoWorker
    requires Assigned(s, r, UntaggedFrom(s.ps, i + 1), Slots(s.count, |UntaggedFrom(s.ps, i + 1)|))
    ensures Assigned(s, r, UntaggedFrom(s.ps, i), Slots(s.count, |UntaggedFrom(s.ps, i)|))
  {
    assert UntaggedFrom(s.ps, i) == UntaggedFrom(s.ps, i + 1);
  }

  /** The step of `AssignFromSpec` past a position when the cap is reached:
      no worker is started, whichever positions were eligible. */
  lemma SkipFull(s: Sched, i: nat, r: Sched)
    requires i < |s.ps| && s.count >= Cap
    requires Assigned(s, r, UntaggedFrom(s.ps, i + 1), Slots(s.count, |UntaggedFrom(s.ps, i + 1)|))
    ensures Assigned(s, r, UntaggedFrom(s.ps, i), Slots(s.count, |UntaggedFrom(s.ps, i)|))
  {
    assert Slots(s.count, |UntaggedFrom(s.ps, i + 1)|) == 0 == Slots(s.count, |UntaggedFrom(s.ps, i)|);
    assert UntaggedFrom(s.ps, i + 1)[..0] == UntaggedFrom(s.ps, i)[..0];
  }

  /** The step of `AssignFromSpec` that starts a worker on position `i`. */
  lemma LaunchStep(s: Sched, i: nat, r: Sched)
    requires i < |s.ps| && s.ps[i].origin == NoWorker && s.count < Cap
    requires
      var s' := Launch(s, i);
      Assigned(s', r, UntaggedFrom(s'.ps, i + 1), Slots(s'.count, |UntaggedFrom(s'.ps, i + 1)|))
    ensures Assigned(s, r, UntaggedFrom(s.ps, i), Slots(s.count, |UntaggedFrom(s.ps, i)|))
  {
    var s' := Launch(s, i);
    var u' := UntaggedFrom(s'.ps, i + 1);
    LaunchUntagged(s, i);
    LaunchThenAssignedAs(s, i, r, u', Slots(s'.count, |u'|), UntaggedFrom(s.ps, i), Slots(s.count, |UntaggedFrom(s.ps, i)|));
  }

  /** Launching on untagged position `i` removes exactly `i` from the
      untagged list from `i` on, and takes exactly one slot. */
  lemma LaunchUntagged(s: Sched, i: nat)
    requires i < |s.ps| && s.ps[i].origin == NoWorker && s.count < Cap
    ensures
      var u' := UntaggedFrom(Launch(s, i).ps, i + 1);
      && UntaggedFrom(s.ps, i) == [i] + u'
      && (forall k :: 0 <= k < |u'| ==> i < u'[k])
      && Slots(s.count, |UntaggedFrom(s.ps, i)|) == Slots(Launch(s, i).count, |u'|) + 1
  {
    var s' := Launch(s, i);
    UntaggedFromFrame(s.ps, s'.ps, i + 1);
  }

  // ---------------------------------------------------------------------------
  // The tick and the other events
  // ---------------------------------------------------------------------------

  /** Every position holds lines (of whatever length). */
  predicate AllEvaluated(ps: seq<Position>) {
    forall i :: 0 <= i < |ps| ==> ps[i].topLines.Some?
  }

  /** A tick either ends the local phase and hands the normalised positions
      to the report, or returns the state after assignment together with the
      progress figure computed from it. */
  datatype TickResult = Finished(report: seq<Position>) | Running(next: Sched, progress: real)

  function Tick(s: Sched, depth: nat): TickResult
    requires |s.ps| > 0 && depth > 0
  {
    if AllEvaluated(s.ps) then Finished(Normalise(s.ps))
    else
      var next := AssignFrom(s, 0);
      Running(next, Progress(next.ps, next.workers, depth))
  }

  /** A worker may deliver once, and only a worker that exists. */
  predicate CanComplete(s: Sched, id: nat) {
    id < |s.workers| && !s.workers[id].done && s.workers[id].pos < |s.ps|
  }

  /** A worker delivers its lines: they are written on its own position and
      the in-flight counter drops by one. */
  function Complete(s: Sched, id: nat, lines: seq<EngineLine>): Sched
    requires CanComplete(s, id)
  {
    var p := s.workers[id].pos;
    s.(ps := s.ps[p := s.ps[p].(topLines := Some(lines))],
       workers := s.workers[id := s.workers[id].(done := true)],
       count := s.count - 1)
  }

  /** A running worker reports the depth its search has reached. */
  function ReportDepth(s: Sched, id: nat, d: nat): Sched
    requires id < |s.workers| && !s.workers[id].done
  {
    s.(workers := s.workers[id := s.workers[id].(depth := d)])
  }

  /** The cutoff evaluation arrives and is stored on its position. */
  function ResolveCutoff(s: Sched, lines: seq<EngineLine>): Sched
    requires s.pendingCutoff.Some? && s.pendingCutoff.value < |s.ps|
  {
    var t := s.pendingCutoff.value;
    s.(ps := s.ps[t := s.ps[t].(cutoffEvaluation := Some(Cloud.CutoffValue(lines)))],
       pendingCutoff := None)
  }

  // ---------------------------------------------------------------------------
  // Properties
  // ---------------------------------------------------------------------------

  lemma {:induction false} PendingAppend(ws: seq<Worker>, extra: seq<Worker>)
    requires forall k :: 0 <= k < |extra| ==> !extra[k].done
    ensures Pending(ws + extra) == Pending(ws) + |extra|
    decreases |extra|
  {
    if |extra| == 0 {
      assert ws + extra == ws;
    } else {
      var init := extra[..|extra| - 1];
      assert (ws + extra)[..|ws + extra| - 1] == ws + init;
      assert (ws + extra)[|ws + extra| - 1] == extra[|extra| - 1];
      PendingAppend(ws, init);
    }
  }

  lemma {:induction false} PendingMarkDone(ws: seq<Worker>, id: nat)
    requires id < |ws| && !ws[id].done
    ensures Pending(ws[id := ws[id].(done := true)]) + 1 == Pending(ws)
    decreases |ws|
  {
    var ws' := ws[id := ws[id].(done := true)];
    var last := |ws| - 1;
    if id == last {
      assert ws'[..last] == ws[..last];
    } else {
      assert ws'[..last] == ws[..last][id := ws[id].(done := true)];
      PendingMarkDone(ws[..last], id);
    }
  }

  lemma {:induction false} PendingSameDone(ws: seq<Worker>, vs: seq<Worker>)
    requires |ws| == |vs|
    requires forall k :: 0 <= k < |ws| ==> ws[k].done == vs[k].done
    ensures Pending(ws) == Pending(vs)
    decreases |ws|
  {
    if |ws| > 0 {
      PendingSameDone(ws[..|ws| - 1], vs[..|vs| - 1]);
    }
  }

  /** The state the cloud phase leaves on a freshly parsed game satisfies the
      invariant. */
  lemma StartInv(ps: seq<Position>, rs: seq<Cloud.Response>, depth: nat)
    requires |rs| == |ps|
    requires forall i :: 0 <= i < |ps| ==> Fresh(ps[i])
    ensures Inv(Start(Cloud.CloudPhase(ps, rs, depth)))
  {
  }

  /** A tick that ends the local phase does so exactly when every position
      holds lines, before assigning anything; the report then holds every
      position, with its lines, and only "cloud" and "local" origins. */
  lemma TickFinishes(s: Sched, depth: nat)
    requires |s.ps| > 0 && depth > 0
    ensures Tick(s, depth).Finished? <==> forall i :: 0 <= i < |s.ps| ==> s.ps[i].topLines.Some?
    ensures Tick(s, depth).Finished? ==>
      var rep := Tick(s, depth).report;
      && rep == Normalise(s.ps)
      && |rep| == |s.ps|
      && forall i :: 0 <= i < |rep| ==>
           && rep[i].topLines.Some?
           && rep[i].topLines == s.ps[i].topLines
           && rep[i].fen == s.ps[i].fen
           && (rep[i].origin == CloudTag || rep[i].origin == LocalTag)
  {
  }

  /** A tick that keeps running starts workers on exactly the first
      `min(Cap - count, #untagged)` untagged positions, in list order, never
      touches a tagged position, and never lets more than `Cap` workers be in
      flight. */
  lemma TickAssigns(s: Sched, depth: nat)
    requires |s.ps| > 0 && depth > 0
    requires s.count <= Cap
    requires Tick(s, depth).Running?
    ensures
      var r := Tick(s, depth).next;
      var u := UntaggedFrom(s.ps, 0);
      var m := Slots(s.count, |u|);
      && m == (if Cap - s.count < |u| then Cap - s.count else |u|)
      && |r.ps| == |s.ps|
      && |r.workers| == |s.workers| + m
      && r.count == s.count + m <= Cap
      && (forall k :: 0 <= k < m ==> r.ps[u[k]].origin == Local(|s.workers| + k) && r.workers[|s.workers| + k].pos == u[k])
      && (forall j :: 0 <= j < |s.ps| && s.ps[j].origin != NoWorker ==> r.ps[j] == s.ps[j])
      && (forall j :: 0 <= j < |s.ps| && j !in u[..m] ==> r.ps[j] == s.ps[j])
      && (m < |u| ==> r.count == Cap)
  {
    AssignFromSpec(s, 0);
    var u := UntaggedFrom(s.ps, 0);
    var m := Slots(s.count, |u|);
    forall j | 0 <= j < |s.ps| && s.ps[j].origin != NoWorker
      ensures j !in u[..m]
    {
    }
  }

  /** An assignment of untagged positions keeps workers and positions
      paired. */
  lemma AssignedKeepsOwned(s: Sched, r: Sched, u: seq<nat>, m: nat)
    requires Owned(s) && Assigned(s, r, u, m)
    requires forall k :: 0 <= k < |u| ==> u[k] < |s.ps| && s.ps[u[k]].origin.NoWorker?
    requires forall k, l :: 0 <= k < l < |u| ==> u[k] < u[l]
    ensures Owned(r)
  {
    AssignedPositionsOwned(s, r, u, m);
    AssignedWorkersOwned(s, r, u, m);
  }

  /** The first half of `AssignedKeepsOwned`: every worker-tagged position
      names a worker that evaluates it. */
  lemma AssignedPositionsOwned(s: Sched, r: Sched, u: seq<nat>, m: nat)
    requires Owned(s) && Assigned(s, r, u, m)
    ensures forall i :: 0 <= i < |r.ps| && r.ps[i].origin.Local? ==>
      r.ps[i].origin.id < |r.workers| && r.workers[r.ps[i].origin.id].pos == i
  {
    var n := |s.workers|;
    forall i | 0 <= i < |r.ps| && r.ps[i].origin.Local?
      ensures r.ps[i].origin.id < |r.workers| && r.workers[r.ps[i].origin.id].pos == i
    {
      if i in u[..m] {
        var k :| 0 <= k < m && u[k] == i;
        assert r.workers[n + k] == Worker(u[k], 0, false);
      } else {
        assert r.ps[i] == s.ps[i];
        assert r.workers[s.ps[i].origin.id] == r.workers[..n][s.ps[i].origin.id];
      }
    }
  }

  /** The second half of `AssignedKeepsOwned`: every worker's position is
      tagged with that worker. */
  lemma AssignedWorkersOwned(s: Sched, r: Sched, u: seq<nat>, m: nat)
    requires Owned(s) && Assigned(s, r, u, m)
    requires forall k :: 0 <= k < |u| ==> u[k] < |s.ps| && s.ps[u[k]].origin.NoWorker?
    requires forall k, l :: 0 <= k < l < |u| ==> u[k] < u[l]
    ensures forall id :: 0 <= id < |r.workers| ==>
      r.workers[id].pos < |r.ps| && r.ps[r.workers[id].pos].origin == Local(id)
  {
    var n := |s.workers|;
    forall id | 0 <= id < |r.workers|
      ensures r.workers[id].pos < |r.ps| && r.ps[r.workers[id].pos].origin == Local(id)
    {
      if id < n {
        assert r.workers[id] == r.workers[..n][id];
        var p := s.workers[id].pos;
        assert s.ps[p].origin.Local?;
        assert p !in u[..m];
      } else {
        var k := id - n;
        assert r.workers[n + k] == Worker(u[k], 0, false);
        assert r.ps[u[k]] == s.ps[u[k]].(origin := Local(n + k));
      }
    }
  }

  /** An assignment only changes origins. */
  lemma AssignedKeepsOther(s: Sched, r: Sched, u: seq<nat>, m: nat)
    requires Assigned(s, r, u, m)
    ensures forall i :: 0 <= i < |s.ps| ==>
      r.ps[i].cutoffEvaluation == s.ps[i].cutoffEvaluation && r.ps[i].topLines == s.ps[i].topLines
      && r.ps[i].fen == s.ps[i].fen && r.ps[i].move == s.ps[i].move
  {
  }

  /** The tick keeps the invariant. */
  lemma TickPreservesInv(s: Sched, depth: nat)
    requires |s.ps| > 0 && depth > 0
    requires Inv(s)
    requires Tick(s, depth).Running?
    ensures Inv(Tick(s, depth).next)
  {
    AssignPreservesInv(s);
  }

  lemma AssignPreservesInv(s: Sched)
    requires Inv(s)
    ensures Inv(AssignFrom(s, 0))
  {
    var r := AssignFrom(s, 0);
    AssignFromSpec(s, 0);
    var u := UntaggedFrom(s.ps, 0);
    var m := Slots(s.count, |u|);
    AssignedKeepsOwned(s, r, u, m);
    AssignedKeepsOther(s, r, u, m);
    SameCutoffs(s, r);
    AssignedKeepsCounted(s, r, u, m);
  }

  /** New workers are undelivered, so the counter grows with them. */
  lemma AssignedKeepsCounted(s: Sched, r: Sched, u: seq<nat>, m: nat)
    requires Counted(s) && Assigned(s, r, u, m) && m == Slots(s.count, |u|)
    ensures Counted(r)
  {
    var n := |s.workers|;
    var extra := r.workers[n..];
    assert r.workers == s.workers + extra;
    forall k | 0 <= k < |extra|
      ensures !extra[k].done
    {
      assert extra[k] == r.workers[n + k] == Worker(u[k], 0, false);
    }
    PendingAppend(s.workers, extra);
  }

  /** The cutoff part of the invariant only looks at cutoff evaluations and
      the outstanding request. */
  lemma SameCutoffs(s: Sched, r: Sched)
    requires OneCutoff(s)
    requires |r.ps| == |s.ps| && r.pendingCutoff == s.pendingCutoff
    requires forall i :: 0 <= i < |s.ps| ==> r.ps[i].cutoffEvaluation == s.ps[i].cutoffEvaluation
    ensures OneCutoff(r)
  {
  }

  /** Assignment does not change the depth total: a new worker starts at
      depth 0, which is what its untagged position contributed before. */
  lemma AssignedKeepsDepthSum(s: Sched, r: Sched, u: seq<nat>, m: nat, depth: nat)
    requires Owned(s) && Assigned(s, r, u, m)
    requires forall k :: 0 <= k < |u| ==> u[k] < |s.ps| && s.ps[u[k]].origin.NoWorker?
    ensures DepthSum(r.ps, r.workers, depth) == DepthSum(s.ps, s.workers, depth)
  {
    var n := |s.workers|;
    forall i | 0 <= i < |s.ps|
      ensures Contribution(r.ps[i].origin, r.workers, depth) == Contribution(s.ps[i].origin, s.workers, depth)
    {
      if i in u[..m] {
        var k :| 0 <= k < m && u[k] == i;
        assert r.workers[n + k].depth == 0;
      } else if s.ps[i].origin.Local? {
        assert r.workers[s.ps[i].origin.id] == r.workers[..n][s.ps[i].origin.id];
      }
    }
    DepthSumSame(r.ps, r.workers, s.ps, s.workers, depth);
  }

  /** So a tick that keeps running reports the progress of the state it
      started from. */
  lemma TickKeepsDepthSum(s: Sched, depth: nat)
    requires |s.ps| > 0 && depth > 0
    requires Owned(s)
    requires Tick(s, depth).Running?
    ensures DepthSum(Tick(s, depth).next.ps, Tick(s, depth).next.workers, depth) == DepthSum(s.ps, s.workers, depth)
    ensures Tick(s, depth).progress == Progress(s.ps, s.workers, depth)
  {
    var r := AssignFrom(s, 0);
    assert Tick(s, depth) == Running(r, Progress(r.ps, r.workers, depth));
    AssignFromKeepsDepthSum(s, depth);
  }

  /** The assignment loop of a tick leaves the depth total unchanged. */
  lemma AssignFromKeepsDepthSum(s: Sched, depth: nat)
    requires Owned(s)
    ensures DepthSum(AssignFrom(s, 0).ps, AssignFrom(s, 0).workers, depth) == DepthSum(s.ps, s.workers, depth)
  {
    AssignFromSpec(s, 0);
    var u := UntaggedFrom(s.ps, 0);
    AssignedKeepsDepthSum(s, AssignFrom(s, 0), u, Slots(s.count, |u|), depth);
  }

  /** A completion writes lines only on the worker's own position, keeps
      every origin, and keeps the invariant (the counter still equals the
      undelivered workers). */
  lemma CompleteSpec(s: Sched, id: nat, lines: seq<EngineLine>, depth: nat)
    requires Inv(s) && CanComplete(s, id)
    ensures
      var r := Complete(s, id, lines);
      var p := s.workers[id].pos;
      && Inv(r)
      && r.count == s.count - 1
      && r.ps[p].topLines == Some(lines)
      && r.ps[p].origin == Local(id)
      && (forall j :: 0 <= j < |s.ps| && j != p ==> r.ps[j] == s.ps[j])
      && (forall j :: 0 <= j < |s.ps| ==> r.ps[j].origin == s.ps[j].origin)
      && DepthSum(r.ps, r.workers, depth) == DepthSum(s.ps, s.workers, depth)
  {
    var r := Complete(s, id, lines);
    CompleteKeepsShape(s, id, lines);
    SamePairing(s, r);
    SameCutoffs(s, r);
    PendingMarkDone(s.workers, id);
    DepthSumSame(r.ps, r.workers, s.ps, s.workers, depth);
  }

  lemma CompleteKeepsShape(s: Sched, id: nat, lines: seq<EngineLine>)
    requires CanComplete(s, id)
    ensures
      var r := Complete(s, id, lines);
      && |r.ps| == |s.ps| && |r.workers| == |s.workers| && r.pendingCutoff == s.pendingCutoff
      && (forall j :: 0 <= j < |s.ps| ==> r.ps[j].origin == s.ps[j].origin)
      && (forall j :: 0 <= j < |s.ps| ==> r.ps[j].cutoffEvaluation == s.ps[j].cutoffEvaluation)
      && (forall k :: 0 <= k < |s.workers| ==> r.workers[k].pos == s.workers[k].pos && r.workers[k].depth == s.workers[k].depth)
  {
  }

  /** The pairing of workers and positions only looks at origins and at the
      positions workers evaluate. */
  lemma SamePairing(s: Sched, r: Sched)
    requires Owned(s)
    requires |r.ps| == |s.ps| && |r.workers| == |s.workers|
    requires forall j :: 0 <= j < |s.ps| ==> r.ps[j].origin == s.ps[j].origin
    requires forall k :: 0 <= k < |s.workers| ==> r.workers[k].pos == s.workers[k].pos
    ensures Owned(r)
  {
  }

  /** A depth report keeps the invariant and, when the reported depth does
      not go down, cannot lower the progress figure. */
  lemma ReportDepthSpec(s: Sched, id: nat, d: nat, depth: nat)
    requires Inv(s) && id < |s.workers| && !s.workers[id].done
    ensures Inv(ReportDepth(s, id, d))
    ensures d >= s.workers[id].depth ==>
      DepthSum(s.ps, s.workers, depth) <= DepthSum(ReportDepth(s, id, d).ps, ReportDepth(s, id, d).workers, depth)
    ensures d <= depth && DepthsWithinTarget(s.workers, depth) ==>
      DepthsWithinTarget(ReportDepth(s, id, d).workers, depth)
  {
    ReportDepthKeepsInv(s, id, d);
    if d >= s.workers[id].depth {
      var r := ReportDepth(s, id, d);
      DepthSumMono(s.ps, s.workers, r.ps, r.workers, depth);
    }
  }

  /** The invariant part of `ReportDepthSpec`. */
  lemma ReportDepthKeepsInv(s: Sched, id: nat, d: nat)
    requires Inv(s) && id < |s.workers| && !s.workers[id].done
    ensures Inv(ReportDepth(s, id, d))
  {
    var r := ReportDepth(s, id, d);
    PendingSameDone(s.workers, r.workers);
    assert forall j :: 0 <= j < |s.workers| ==> r.workers[j].pos == s.workers[j].pos;
  }

  /** The cutoff evaluation lands on the requested position only, keeps the
      invariant, and afterwards exactly one position carries one. */
  lemma ResolveCutoffSpec(s: Sched, lines: seq<EngineLine>)
    requires Inv(s) && s.pendingCutoff.Some?
    ensures
      var r := ResolveCutoff(s, lines);
      var t := s.pendingCutoff.value;
      && Inv(r)
      && r.ps[t].cutoffEvaluation == Some(Cloud.CutoffValue(lines))
      && (forall j :: 0 <= j < |s.ps| && j != t ==> r.ps[j] == s.ps[j])
      && (forall j :: 0 <= j < |s.ps| && r.ps[j].cutoffEvaluation.Some? ==> j == t)
  {
  }

  /** Under the invariant no two workers ever evaluate the same position. */
  lemma WorkersDistinct(s: Sched, a: nat, b: nat)
    requires Inv(s)
    requires a < |s.workers| && b < |s.workers| && a != b
    ensures s.workers[a].pos != s.workers[b].pos
  {
  }
}

=== FILE: types.dfy ===
/**
 The data model shared by every phase of the game evaluation: engine lines,
 evaluations, the per-position origin tag and the positions themselves.
 */
module Types {

  datatype Option<+T> = None | Some(value: T)

  /** At most this many local workers are in flight at once. */
  const Cap: nat := 8

  /** The `type` field of an evaluation: centipawns or moves to mate. */
  datatype EvalKind = Cp | Mate

  /** The `value` field of an evaluation. A cloud line that carries neither a
      centipawn nor a mate score ends up holding the literal string "cp"
      instead of a number; `CpLiteral` stands for that string. */
  datatype Score = Num(n: int) | CpLiteral

  datatype Evaluation = Evaluation(kind: EvalKind, value: Score)

  /** One ranked principal variation: rank `id` (1 for the best line),
      search depth, best move in coordinate notation, and its evaluation. */
  datatype EngineLine = EngineLine(id: int, depth: nat, moveUCI: string, evaluation: Evaluation)

  datatype Move = Move(san: string, uci: string)

  /** The `worker` field of a position: nothing yet, the string "cloud",
      a live local worker (identified by its index in the scheduler's worker
      list), or the string "local" written when the report is handed off. */
  datatype Origin = NoWorker | CloudTag | Local(id: nat) | LocalTag

  datatype Position = Position(
    fen: string,
    move: Option<Move>,
    topLines: Option<seq<EngineLine>>,
    cutoffEvaluation: Option<Evaluation>,
    origin: Origin
  )

  /** A local worker: the position it evaluates, the depth it currently
      reports, and whether its result has been delivered. */
  datatype Worker = Worker(pos: nat, depth: nat, done: bool)

  /** A position as the PGN parser hands it over: nothing evaluated yet. */
  predicate Fresh(p: Position) {
    p.topLines.None? && p.cutoffEvaluation.None? && p.origin.NoWorker?
  }
}
